=== FILE: README.md ===
# Neighborhood explorer: a verified model of the map page's decision rules

The neighborhood explorer is a single Leaflet page (`script.js`). It draws three
NYC open-data layers: public restrooms, public art and dog runs. It fetches each
dataset once and turns every located row into a marker (for restrooms, only a
prefix of them). It lets the user thin out the
restroom layer with a slider. Legend checkboxes show and hide each layer.

This project models the pure rules inside that script, in Dafny:

- **Values** (`jsvalues.dfy`): a JSON value type plus `undefined`, with
  JavaScript truthiness, member and index access, array destructuring,
  `Number(...)` and the `a || b || 'default'` title chains.
  `Number(...)` maps numbers to themselves, `null` to 0 and booleans to 0 or 1.
  Every other value is coerced by an abstract `parse` function supplied by the
  caller, because string parsing and NaN are not modelled.
- **Coordinate resolution** (`coordinates.dfy`): `extractLatLon` tries flat
  `latitude`/`longitude`, then a nested `location`, then a GeoJSON `Point`
  (swapped from `[lon, lat]`), and returns the first match.
- **MultiPolygon "centroid"** (`centroid.dfy`): the three nested `forEach`
  walks over polygons, rings and vertices. A walk that would throw yields
  `null`, as the `catch` does. A typed `seq<seq<seq<Position>>>` view of
  well-formed geometry shows that the result is the unweighted mean of all
  vertices.
- **Loaders** (`loaders.dfy`): what each completed fetch turns its rows
  into. That is the art markers, the dog-run markers (centroid, else first
  vertex, else skipped), and the filtered bathroom buffer.
- **Density control** (`density.dfy`): the bathroom buffer, the slider
  `{value, max}` (initially 50 of 300), the rendered markers, and the four
  operations `showBathrooms`, slider input, `updateBathroomSliderMax` and the
  load.
- **Page and legend** (`page.dfy`): the three layers, the checkbox and
  visibility sets, the hidden flag of the slider control, and each event as
  a function from page to page.

`common.dfy` holds `Option`, a first-match combinator and the array
operations the script uses (`filter`, `forEach` with skips, `slice(0, n)`).

Arithmetic is exact `real`. IEEE rounding and NaN are outside the model, and
nothing promises that a coordinate is finite or in range, because the script
never checks.

### Behaviour of `script.js` worth knowing

- Line 26 renders `min(50, n)` of the `n` located bathrooms whatever the
  slider reads. If the slider was moved before the bathroom fetch resolved
  and its value is within the recomputed maximum, the layer shows `min(50, n)`
  markers while the slider reads another number (`Density.LoadIgnoresSliderValue`,
  `Density.SliderAt100Shows50`). So the number of markers shown need not be
  `min(slider value, buffer size)`.
- In the script text, a slider value above the recomputed maximum takes the
  branch of lines 81-84: the value is lowered to the maximum and that many
  markers are rendered (`Density.LoadAfterSliderRaised`). This reads the
  script with the browser's range-input sanitisation ignored. In a conforming
  browser, assigning `slider.max` on line 80 already clamps the value, so the
  branch does not run and the layer keeps the `min(50, n)` markers of line 26. Either
  way, the slider can end up reading a number other than the count shown.
- `extractLatLon` knows only three schemas: flat fields, a nested
  `location`, and a GeoJSON `Point`. The MultiPolygon centroid and its
  first-vertex fallback live in the dog-run loader alone.
- The script adds no NaN check of its own after `Number(...)`. Leaflet's
  marker constructor does reject NaN, by throwing (lines 37, 133, 195). Such a
  throw stops the rest of that `forEach` and lands in the fetch's `.catch`.
  For restrooms, it stops `showBathrooms(50)` on line 26, so line 28 never
  runs. The model has no NaN, so it does not contain this path.
- There is no café layer and no marker clustering. The script uses plain
  layer groups.

## Model

| member | source | states |
|---|---|---|
| `JsValues.FirstTruthy` | script.js:123-125 | `a \|\| b \|\| last` yields the first truthy candidate, and `last` when no candidate is truthy |
| `JsValues.Index` | script.js:187-188 | optional-chained indexing gives the array element, or `undefined` out of range and on `undefined`, `null`, numbers and booleans |
| `JsValues.Destructure` | script.js:161 | `[lon, lat]` destructuring succeeds exactly on arrays and strings and reads slots 0 and 1; anything else throws |
| `JsValues.ToNumber` | script.js:104 | `Number(x)` is `x` on numbers, 0 on `null`, 1 or 0 on `true` or `false`; other values go through the abstract coercion |
| `Coordinates.FlatReading` | script.js:103-104 | the flat reading is present exactly when `rec.latitude && rec.longitude` holds |
| `Coordinates.NestedReading` | script.js:106-107 | the nested reading is present exactly when `rec.location` and both of its fields are truthy |
| `Coordinates.PointReading` | script.js:109-111 | the Point reading is present exactly when `the_geom` is truthy, its `type` is 'Point' and its `coordinates` is an array |
| `Coordinates.ExtractLatLon` | script.js:102-114 | equals the first present of the flat, nested and Point readings, tried in that order; `null` exactly when none of the three guards holds |
| `Coordinates.FlatFieldsWin` | script.js:103-105 | truthy flat fields give `(Number(latitude), Number(longitude))` unchanged |
| `Coordinates.LaterSchemasShadowed` | script.js:103-113 | once the flat fields match, no `location` or geometry added to the record changes the result |
| `Coordinates.PointIsSwapped` | script.js:109-111 | a record with only a Point `[x, y]` resolves to `(y, x)`, latitude first |
| `Centroid.VertexAcc` | script.js:161-165 | one vertex adds one to the count, and throws unless it is destructurable |
| `Centroid.SumVertices` | script.js:160-166 | the ring walk succeeds exactly when every vertex is destructurable, and then counts every vertex |
| `Centroid.SumRings` | script.js:158-166 | the polygon walk succeeds exactly when every ring is an array of destructurable vertices |
| `Centroid.SumPolygons` | script.js:158-167 | the whole walk succeeds exactly when every polygon is an array of walkable rings |
| `Centroid.CentroidOf` | script.js:153-173 | `null` for a non-MultiPolygon, for non-array coordinates, for a walk that throws and for zero vertices; otherwise each component times the count is that component's vertex sum |
| `Centroid.Average` | script.js:169 | the returned pair is the mean of the accumulated vertices: each coordinate times the count gives that coordinate's sum |
| `Centroid.CentroidIsVertexMean` | script.js:152-169 | on well-formed geometry the result is the unweighted mean of every vertex of every ring of every polygon, and `null` exactly when there are no vertices |
| `Centroid.ClosingVertexCountedTwice` | script.js:156-169 | a closed square ring's repeated vertex is counted twice: mean (0.8, 0.8), not the centre (1, 1) |
| `Loaders.ArtMarker` | script.js:119-123 | an art row gets a marker exactly when `extractLatLon` resolves, placed there and titled by `title`, else `name`, else 'Public Art' |
| `Loaders.LoadArt` | script.js:116-136 | every art marker comes from a row, and every located row contributes its marker |
| `Loaders.ArtRowsInOrder` | script.js:119-136 | the art markers of two batches of rows are each batch's markers, concatenated in row order |
| `Loaders.DogRunCoords` | script.js:180-190 | the centroid when non-null; else the first vertex swapped to latitude first when it is truthy on a MultiPolygon; `null` exactly when neither applies |
| `Loaders.DogRunMarker` | script.js:190-196 | a dog-run row gets a marker exactly when its coordinates resolve, placed there and titled `name`, else 'Dog Run' |
| `Loaders.DogRunRowsInOrder` | script.js:178-198 | the dog-run markers of two batches of rows are each batch's markers, concatenated in row order |
| `Loaders.LoadDogRuns` | script.js:177-198 | every dog-run marker comes from a row, and every row with coordinates contributes its marker |
| `Loaders.UnlocatedDogRunSkipped` | script.js:178-190 | a row without coordinates contributes nothing, and the rows after it are still processed |
| `Loaders.WellFormedDogRun` | script.js:181-189 | a well-formed MultiPolygon is placed at its vertex mean; the first-vertex fallback never fires for one |
| `Loaders.NoVertexNoFirst` | script.js:187 | on well-formed geometry without vertices, `coordinates?.[0]?.[0]?.[0]` is `undefined` |
| `Loaders.FallbackAfterThrow` | script.js:181-188 | in `[[[[1, 2]], 5]]` the walk throws, and the first vertex places the run at (2, 1) |
| `Loaders.BathroomBuffer` | script.js:24 | the buffer holds exactly the rows with truthy `latitude` and `longitude`, and no more rows than were fetched |
| `Loaders.BufferCounts` | script.js:24 | each located row is buffered as many times as it was fetched, and no unlocated row is buffered |
| `Loaders.BufferKeepsOrder` | script.js:24 | filtering distributes over concatenation, so the buffer keeps fetch order |
| `Loaders.BufferOfOne` | script.js:24 | a single row is kept exactly when it is located |
| `Loaders.BathroomMarker` | script.js:37-39 | a bathroom marker sits at `(Number(latitude), Number(longitude))`, titled `facility_name` or 'No Facility Name' |
| `Seqs.Filter` | script.js:24 | `filter` keeps exactly the elements that pass, and no more than it was given |
| `Seqs.FilterCounts` | script.js:24 | each passing value occurs in the result as often as in the input, and no failing value occurs |
| `Seqs.FilterAppend` | script.js:24 | `filter` distributes over concatenation |
| `Seqs.FilterIdempotent` | script.js:24 | filtering the filtered buffer changes nothing |
| `Seqs.FilterMap` | script.js:119-121 | a `forEach` that skips rows without a result emits exactly the present results |
| `Seqs.FilterMapAppend` | script.js:119-121 | the skipping `forEach` over two batches emits each batch's results, concatenated in order |
| `Seqs.FilterMapSkips` | script.js:121 | a row without a result is skipped without disturbing the others' output |
| `Seqs.SliceTo` | script.js:35-36 | `slice(0, n)` is a prefix of length `min(n, length)` for `n >= 0`, counting from the end for negative `n` |
| `Density.ClampedMax` | script.js:79 | the recomputed maximum lies in [10, 1000], and equals the buffer size when that size lies there |
| `Density.RenderAll` | script.js:36-40 | one marker per buffered record, in order |
| `Density.ShowBathrooms` | script.js:33-41 | the layer becomes the rendered prefix of length `min(limit, buffer)`, replacing what it held (a negative limit counts back from the end, as `slice` does); buffer and slider unchanged |
| `Density.SliderInput` | script.js:66-70 | the slider takes the new value, its maximum unchanged, and the layer shows `min(value, buffer)` bathrooms |
| `Density.UpdateSliderMax` | script.js:74-87 | no-op on an empty buffer; otherwise max becomes the clamped size, and the value is lowered to it with a re-render only when it exceeds it; value and markers are otherwise kept |
| `Density.Load` | script.js:23-29 | the buffer is the filtered rows; the layer holds `min(50, n)` markers unless the slider value exceeds the new maximum, when it holds `min(max, n)`; with no located rows the slider is untouched, otherwise its max becomes the clamped `n` and its value is lowered to that max only when it exceeds it |
| `Density.OperationsKeepValid` | script.js:33-87 | every operation keeps the layer a rendered prefix of the buffer and the maximum within [10, 1000] |
| `Density.InitialValid` | script.js:18 | the initial state (no bathrooms, slider 50 of 300) is valid |
| `Density.ShowIdempotent` | script.js:33-36 | rendering the same limit twice is rendering it once, and the prior markers do not matter |
| `Density.SliderInputIdempotent` | script.js:66-70 | setting the slider to the same value twice is setting it once |
| `Density.LoadFromInitial` | script.js:24-28 | with no slider interaction first, `min(50, n)` markers show, and max and value are the clamped ones |
| `Density.TwentyBathrooms` | script.js:78-85 | twenty located bathrooms give max 20, value 20 and 20 markers |
| `Density.LoadIgnoresSliderValue` | script.js:26 | with the slider value within the new maximum, the load shows `min(50, n)` markers whatever the value is |
| `Density.SliderAt100Shows50` | script.js:24-28 | with 200 located rows and the slider already at 100, the layer shows 50 while the slider reads 100 |
| `Density.LoadAfterSliderRaised` | script.js:79-84 | in the script text, with browser sanitisation ignored, a slider value above the new maximum is lowered to it, and the layer then shows that maximum, more than 50 |
| `Page.OnChange` | script.js:239-259 | a change handler sets only its own layer's visibility from its box, toggles the control only for bathrooms, and never alters any layer's markers |
| `Page.Click` | script.js:239-259 | a click flips exactly one box and, on a synced page, exactly that layer's visibility; contents untouched |
| `Page.ClickTwiceRestores` | script.js:239-259 | toggling a layer off and on again restores the page and the visible markers exactly |
| `Page.HidingKeepsOthersVisible` | script.js:251-258 | hiding one layer leaves the other shown layers' markers on screen |
| `Page.ArtLoaded` | script.js:133-135 | the art rows' markers join only the art layer; visibility untouched |
| `Page.DogRunsLoaded` | script.js:195-196 | the dog-run rows' markers join only the dog-run layer; visibility untouched |
| `Page.BathroomsLoaded` | script.js:23-28 | the bathroom fetch changes only the bathroom state; other layers and visibility untouched |
| `Page.SliderMoved` | script.js:66-70 | a slider move changes only the bathroom state, whether or not the control is hidden |
| `Page.EventsKeepSync` | script.js:239-249 | the page starts with visibility equal to the ticked boxes and the control hidden exactly when the bathroom box is unticked, and every event keeps it so |

## Left out

- Leaflet: the map view, tile layer, icons, `bindPopup` and popup HTML (lines 1-6, 92-99, 127-131, 143-150, 197). These are foreign library calls. A marker is modelled as its position and title.
- The art popup's description and artist chains (lines 124-125). They feed only popup HTML.
- `fetch`, the promise chains and the `.catch` logging (lines 21-30, 116-138, 175-200). These are network I/O. A completed fetch is a function applied to its rows, and a failed or hung fetch is an event that never happens.
- Rows that are not objects. A `null` row would make the loader throw and abort the remaining rows through `.catch`. Rows are modelled as JSON objects.
- DOM lookups and their guards (`if (!slider || !label) return`, lines 64, 77). The elements are taken to exist. The slider's label text is display text and is also left out. It mirrors the value only in the script text with the browser's sanitisation ignored: in a browser, clamping on line 80 can leave the label at its old value.
- The browser's own sanitisation of the range input: clamping its value into [min, max] when `max` changes, and snapping to `step`. The slider is taken as the plain pair the script reads and writes.
- Density.UpdateSliderMax: models the script text of lines 78-86. In a conforming browser the branch of lines 81-84 cannot run right after line 80, because assigning `max` already clamps the value. The model takes that branch whenever the unclamped value exceeds the new maximum.
- Seqs.FilterMap: its ensures speak of membership only. Order and multiplicity are stated by `FilterMapAppend` and `FilterMapSkips`.
- Loaders.LoadArt: its ensures speak of membership only. Order and multiplicity are stated by `ArtRowsInOrder`.
- Loaders.LoadDogRuns: its ensures speak of membership only. Order and multiplicity are stated by `DogRunRowsInOrder` and `UnlocatedDogRunSkipped`.
- `disableClickPropagation` and CSS classes. Only the `hidden` flag of the slider control is modelled.
- IEEE floating point and NaN. Sums are exact reals. `Number(...)` on strings, `undefined`, arrays and objects is the abstract `parse`, which always yields a real. The model therefore assumes that every resolved row renders. The throw of Leaflet's marker constructor on a NaN coordinate, and the rows and steps that throw skips, are not modelled.
- JavaScript string indexing by UTF-16 unit. Dafny strings are sequences of Unicode scalar values.
- JsValues.Index: defined for single-digit indices only. The script indexes only with 0 and 1.
- The café layer. No such code exists in `script.js`.

=== FILE: centroid.dfy ===
/** The "centroid" of a MultiPolygon geometry (`centroidOfMultiPolygon`,
    script.js lines 153-173): the plain mean of every vertex of every ring of
    every polygon, with `null` for anything that is not a MultiPolygon, has
    no vertices, or makes the vertex walk throw. Sums are exact reals. */
module Centroid {
  import opened Options
  import opened JsValues
  import opened Coordinates

  /** The three running variables `latSum`, `lonSum` and `count`. */
  datatype Acc = Acc(latSum: real, lonSum: real, count: nat)

  function Zero(): Acc { Acc(0.0, 0.0, 0) }

  function Plus(a: Acc, b: Acc): Acc {
    Acc(a.latSum + b.latSum, a.lonSum + b.lonSum, a.count + b.count)
  }

  /** One `([lon, lat]) => { latSum += Number(lat); lonSum += Number(lon); count += 1 }`
      step; None when the vertex cannot be destructured. */
  function VertexAcc(v: Value, parse: Value -> real): (r: Option<Acc>)
    ensures r.Some? <==> v.Arr? || v.Str?
    ensures r.Some? ==> r.value.count == 1
  {
    match Destructure(v)
    case Some((lon, lat)) => Some(Acc(ToNumber(lat, parse), ToNumber(lon, parse), 1))
    case None => None
  }

  /** `ring.forEach(...)` over a ring's vertices. */
  function SumVertices(vs: seq<Value>, parse: Value -> real): (r: Option<Acc>)
    ensures r.Some? <==> forall i :: 0 <= i < |vs| ==> vs[i].Arr? || vs[i].Str?
    ensures r.Some? ==> r.value.count == |vs|
  {
    if vs == [] then Some(Zero())
    else
      assert forall i :: 1 <= i < |vs| ==> vs[i] == vs[1..][i - 1];
      match (VertexAcc(vs[0], parse), SumVertices(vs[1..], parse))
      case (Some(a), Some(b)) => Some(Plus(a, b))
      case _ => None
  }

  /** A ring the walk can traverse: an array of destructurable vertices. */
  predicate WalkableRing(ring: Value) {
    ring.Arr? && forall i :: 0 <= i < |ring.items| ==> ring.items[i].Arr? || ring.items[i].Str?
  }

  /** `poly.forEach(ring => ring.forEach(...))` over a polygon's rings; a
      ring that is not an array has no `forEach` and throws. */
  function SumRings(rings: seq<Value>, parse: Value -> real): (r: Option<Acc>)
    ensures r.Some? <==> forall i :: 0 <= i < |rings| ==> WalkableRing(rings[i])
  {
    if rings == [] then Some(Zero())
    else
      assert forall i :: 1 <= i < |rings| ==> rings[i] == rings[1..][i - 1];
      var head := if rings[0].Arr? then SumVertices(rings[0].items, parse) else None;
      match (head, SumRings(rings[1..], parse))
      case (Some(a), Some(b)) => Some(Plus(a, b))
      case _ => None
  }

  /** A polygon the walk can traverse: an array of walkable rings. */
  predicate WalkablePolygon(poly: Value) {
    poly.Arr? && forall i :: 0 <= i < |poly.items| ==> WalkableRing(poly.items[i])
  }

  /** `geom.coordinates.forEach(poly => ...)` over the polygons. */
  function SumPolygons(polys: seq<Value>, parse: Value -> real): (r: Option<Acc>)
    ensures r.Some? <==> forall i :: 0 <= i < |polys| ==> WalkablePolygon(polys[i])
  {
    if polys == [] then Some(Zero())
    else
      assert forall i :: 1 <= i < |polys| ==> polys[i] == polys[1..][i - 1];
      var head := if polys[0].Arr? then SumRings(polys[0].items, parse) else None;
      match (head, SumPolygons(polys[1..], parse))
      case (Some(a), Some(b)) => Some(Plus(a, b))
      case _ => None
  }

  /** The guard of line 155: a truthy value whose `type` is 'MultiPolygon'
      and whose `coordinates` is an array. */
  predicate IsMultiPolygon(geom: Value) {
    Truthy(geom) && HasType(geom, "MultiPolygon") && Get(geom, "coordinates").Arr?
  }

  /** `centroidOfMultiPolygon(geom)` */
  function CentroidOf(geom: Value, parse: Value -> real): (r: Option<LatLon>)
    ensures !HasType(geom, "MultiPolygon") ==> r.None?
    ensures !Get(geom, "coordinates").Arr? ==> r.None?
    ensures IsMultiPolygon(geom) && SumPolygons(Get(geom, "coordinates").items, parse).None? ==> r.None?
    ensures r.Some? <==>
      && IsMultiPolygon(geom)
      && SumPolygons(Get(geom, "coordinates").items, parse).Some?
      && SumPolygons(Get(geom, "coordinates").items, parse).value.count > 0
    ensures r.Some? ==> IsMeanOf(r.value, SumPolygons(Get(geom, "coordinates").items, parse).value)
  {
    if !IsMultiPolygon(geom) then None
    else
      var walk := SumPolygons(Get(geom, "coordinates").items, parse);
      if walk.None? then None   // the catch block
      else if walk.value.count == 0 then None
      else Some(Average(walk.value))
  }

  /** `p` is the mean of the accumulated vertices: at least one was counted,
      and each coordinate times the count gives that coordinate's sum. */
  predicate IsMeanOf(p: LatLon, acc: Acc) {
    acc.count > 0 && p.lat * (acc.count as real) == acc.latSum && p.lon * (acc.count as real) == acc.lonSum
  }

  /** `[latSum / count, lonSum / count]` (line 169). */
  function Average(acc: Acc): (r: LatLon)
    requires acc.count > 0
    ensures IsMeanOf(r, acc)
  {
    var n := acc.count as real;
    DivisionUndone(acc.latSum, n);
    DivisionUndone(acc.lonSum, n);
    LatLon(acc.latSum / n, acc.lonSum / n)
  }

  lemma DivisionUndone(sum: real, count: real)
    requires count > 0.0
    ensures (sum / count) * count == sum
  {
  }

  // ---------------------------------------------------------------------
  // The well-formed case, over typed geometry

  /** A GeoJSON position `[lon, lat]`. */
  datatype Position = Position(lon: real, lat: real)

  /** Polygons, each a list of rings, each a list of positions. */
  type MultiPolygon = seq<seq<seq<Position>>>

  /** Every vertex of every ring of every polygon, in walk order. */
  function Vertices(mp: MultiPolygon): seq<Position> {
    if mp == [] then [] else PolygonVertices(mp[0]) + Vertices(mp[1..])
  }

  function PolygonVertices(poly: seq<seq<Position>>): seq<Position> {
    if poly == [] then [] else poly[0] + PolygonVertices(poly[1..])
  }

  function SumLat(vs: seq<Position>): real {
    if vs == [] then 0.0 else vs[0].lat + SumLat(vs[1..])
  }

  function SumLon(vs: seq<Position>): real {
    if vs == [] then 0.0 else vs[0].lon + SumLon(vs[1..])
  }

  /** The arithmetic mean of a non-empty list of positions, latitude first. */
  function Mean(vs: seq<Position>): LatLon
    requires |vs| > 0
  {
    LatLon(SumLat(vs) / (|vs| as real), SumLon(vs) / (|vs| as real))
  }

  /** The sums a list of positions contributes. */
  function AccOf(vs: seq<Position>): Acc {
    Acc(SumLat(vs), SumLon(vs), |vs|)
  }

  /** The JSON a typed MultiPolygon arrives as. */
  function EmbedPosition(p: Position): Value {
    Arr([Num(p.lon), Num(p.lat)])
  }

  function EmbedRing(ring: seq<Position>): seq<Value> {
    if ring == [] then [] else [EmbedPosition(ring[0])] + EmbedRing(ring[1..])
  }

  function EmbedPolygon(poly: seq<seq<Position>>): seq<Value> {
    if poly == [] then [] else [Arr(EmbedRing(poly[0]))] + EmbedPolygon(poly[1..])
  }

  function EmbedPolygons(mp: MultiPolygon): seq<Value> {
    if mp == [] then [] else [Arr(EmbedPolygon(mp[0]))] + EmbedPolygons(mp[1..])
  }

  /** `{ "type": "MultiPolygon", "coordinates": mp }` */
  function MultiPolygonGeometry(mp: MultiPolygon): Value {
    Obj(map["type" := Str("MultiPolygon"), "coordinates" := Arr(EmbedPolygons(mp))])
  }

  lemma {:induction false} AccOfAppend(a: seq<Position>, b: seq<Position>)
    ensures AccOf(a + b) == Plus(AccOf(a), AccOf(b))
  {
    if a == [] {
      assert a + b == b;
    } else {
      assert (a + b)[0] == a[0];
      assert (a + b)[1..] == a[1..] + b;
      AccOfAppend(a[1..], b);
    }
  }

  lemma {:induction false} SumRingExact(ring: seq<Position>, parse: Value -> real)
    ensures SumVertices(EmbedRing(ring), parse) == Some(AccOf(ring))
  {
    if ring != [] {
      var e := EmbedRing(ring);
      assert e[0] == EmbedPosition(ring[0]);
      assert e[1..] == EmbedRing(ring[1..]);
      SumRingExact(ring[1..], parse);
    }
  }

  lemma {:induction false} SumPolygonExact(poly: seq<seq<Position>>, parse: Value -> real)
    ensures SumRings(EmbedPolygon(poly), parse) == Some(AccOf(PolygonVertices(poly)))
  {
    if poly != [] {
      var e := EmbedPolygon(poly);
      assert e[0] == Arr(EmbedRing(poly[0]));
      assert e[1..] == EmbedPolygon(poly[1..]);
      SumRingExact(poly[0], parse);
      SumPolygonExact(poly[1..], parse);
      AccOfAppend(poly[0], PolygonVertices(poly[1..]));
    }
  }

  lemma {:induction false} SumPolygonsExact(mp: MultiPolygon, parse: Value -> real)
    ensures SumPolygons(EmbedPolygons(mp), parse) == Some(AccOf(Vertices(mp)))
  {
    if mp != [] {
      var e := EmbedPolygons(mp);
      assert e[0] == Arr(EmbedPolygon(mp[0]));
      assert e[1..] == EmbedPolygons(mp[1..]);
      SumPolygonExact(mp[0], parse);
      SumPolygonsExact(mp[1..], parse);
      AccOfAppend(PolygonVertices(mp[0]), Vertices(mp[1..]));
    }
  }

  /** On a well-formed MultiPolygon the result is the unweighted mean of all
      vertices across all rings and polygons — not an area-weighted
      centroid — and `null` exactly when there are no vertices. */
  lemma {:induction false} CentroidIsVertexMean(mp: MultiPolygon, parse: Value -> real)
    ensures CentroidOf(MultiPolygonGeometry(mp), parse)
      == if |Vertices(mp)| == 0 then None else Some(Mean(Vertices(mp)))
  {
    var geom := MultiPolygonGeometry(mp);
    assert Get(geom, "type") == Str("MultiPolygon");
    assert Get(geom, "coordinates") == Arr(EmbedPolygons(mp));
    SumPolygonsExact(mp, parse);
  }

  /** A closed ring repeats its first vertex, and the mean counts it twice:
      the unit-2 square's vertex mean is (0.8, 0.8), not its centre (1, 1). */
  lemma ClosingVertexCountedTwice(parse: Value -> real)
    ensures CentroidOf(MultiPolygonGeometry([[[Position(0.0, 0.0), Position(2.0, 0.0), Position(2.0, 2.0), Position(0.0, 2.0), Position(0.0, 0.0)]]]), parse)
      == Some(LatLon(0.8, 0.8))
  {
    var ring := [Position(0.0, 0.0), Position(2.0, 0.0), Position(2.0, 2.0), Position(0.0, 2.0), Position(0.0, 0.0)];
    var mp: MultiPolygon := [[ring]];
    CentroidIsVertexMean(mp, parse);
    assert PolygonVertices([ring]) == ring + PolygonVertices([]);
    assert Vertices(mp) == PolygonVertices([ring]) + Vertices([]);
    assert Vertices(mp) == ring;
    assert SumLat(ring) == 4.0;
    assert SumLon(ring) == 4.0;
  }
}

=== FILE: common.dfy ===
/** The `null`-or-value result shape the script's helpers return. */
module Options {

  datatype Option<+T> = None | Some(value: T)

  /** The first present value of `xs`: an ordered list of readers tried
      until one yields something (a first-match combinator). */
  function FirstSome<T>(xs: seq<Option<T>>): (r: Option<T>)
    ensures r.Some? <==> exists i :: 0 <= i < |xs| && xs[i].Some?
    ensures forall i :: 0 <= i < |xs| && xs[i].Some? && (forall j :: 0 <= j < i ==> xs[j].None?) ==> r == xs[i]
  {
    if xs == [] then None
    else if xs[0].Some? then xs[0]
    else
      var rest := FirstSome(xs[1..]);
      assert forall i :: 1 <= i < |xs| ==> xs[i] == xs[1..][i - 1];
      rest
  }
}

/** Sequence operations of JavaScript arrays the script relies on. */
module Seqs {
  import opened Options

  function Min(a: int, b: int): int { if a <= b then a else b }
  function Max(a: int, b: int): int { if a >= b then a else b }

  /** `xs.filter(p)`: the elements of `xs` satisfying `p`. Multiplicity is
      stated by `FilterCounts`, order by `FilterAppend` together with the
      one-element case. */
  function Filter<T>(xs: seq<T>, p: T -> bool): (r: seq<T>)
    ensures |r| <= |xs|
    ensures forall i :: 0 <= i < |r| ==> r[i] in xs && p(r[i])
    ensures forall i :: 0 <= i < |xs| && p(xs[i]) ==> xs[i] in r
  {
    if xs == [] then []
    else
      var rest := Filter(xs[1..], p);
      assert forall i :: 1 <= i < |xs| ==> xs[i] == xs[1..][i - 1];
      if p(xs[0]) then [xs[0]] + rest else rest
  }

  /** Filtering distributes over concatenation: together with the
      one-element case this pins down the order of the result. */
  lemma {:induction false} FilterAppend<T>(a: seq<T>, b: seq<T>, p: T -> bool)
    ensures Filter(a + b, p) == Filter(a, p) + Filter(b, p)
  {
    if a == [] {
      assert a + b == b;
    } else {
      assert (a + b)[0] == a[0];
      assert (a + b)[1..] == a[1..] + b;
      FilterAppend(a[1..], b, p);
    }
  }

  /** Each passing value occurs in the result as often as in the input,
      and no failing value occurs at all. */
  lemma {:induction false} FilterCounts<T>(xs: seq<T>, p: T -> bool)
    ensures forall x :: multiset(Filter(xs, p))[x] == if p(x) then multiset(xs)[x] else 0
  {
    if xs != [] {
      FilterCounts(xs[1..], p);
      assert xs == [xs[0]] + xs[1..];
      assert multiset(xs) == multiset([xs[0]]) + multiset(xs[1..]);
    }
  }

  /** A sequence whose every element passes comes back unchanged. */
  lemma {:induction false} FilterKeepsAll<T>(xs: seq<T>, p: T -> bool)
    requires forall i :: 0 <= i < |xs| ==> p(xs[i])
    ensures Filter(xs, p) == xs
  {
    if xs != [] {
      FilterKeepsAll(xs[1..], p);
    }
  }

  /** Filtering twice keeps what filtering once keeps. */
  lemma {:induction false} FilterIdempotent<T>(xs: seq<T>, p: T -> bool)
    ensures Filter(Filter(xs, p), p) == Filter(xs, p)
  {
    var r := Filter(xs, p);
    FilterKeepsAll(r, p);
  }

  /** `xs.forEach(x => { const y = f(x); if (!y) return; emit(y); })`: the
      present results of `f`, in the order of `xs`. The ensures speak of
      membership only; order and multiplicity follow from `FilterMapAppend`
      and `FilterMapSkips`. */
  function FilterMap<A, B>(xs: seq<A>, f: A -> Option<B>): (r: seq<B>)
    ensures |r| <= |xs|
    ensures forall i :: 0 <= i < |xs| && f(xs[i]).Some? ==> f(xs[i]).value in r
    ensures forall y :: y in r ==> exists i :: 0 <= i < |xs| && f(xs[i]) == Some(y)
  {
    if xs == [] then []
    else
      var rest := FilterMap(xs[1..], f);
      assert forall i :: 1 <= i < |xs| ==> xs[i] == xs[1..][i - 1];
      match f(xs[0])
      case Some(y) => [y] + rest
      case None => rest
  }

  /** Each element contributes independently: one that yields nothing
      leaves the contributions of the others untouched. */
  lemma {:induction false} FilterMapAppend<A, B>(a: seq<A>, b: seq<A>, f: A -> Option<B>)
    ensures FilterMap(a + b, f) == FilterMap(a, f) + FilterMap(b, f)
  {
    if a == [] {
      assert a + b == b;
    } else {
      assert (a + b)[0] == a[0];
      assert (a + b)[1..] == a[1..] + b;
      FilterMapAppend(a[1..], b, f);
    }
  }

  /** An element that yields nothing is skipped without disturbing the rest. */
  lemma FilterMapSkips<A, B>(a: seq<A>, x: A, b: seq<A>, f: A -> Option<B>)
    requires f(x).None?
    ensures FilterMap(a + [x] + b, f) == FilterMap(a, f) + FilterMap(b, f)
  {
    FilterMapAppend(a + [x], b, f);
    FilterMapAppend(a, [x], f);
    assert [x][1..] == [];
  }

  /** `xs.slice(0, end)`, including JavaScript's reading of a negative
      `end` as an offset from the end of the array. */
  function SliceTo<T>(xs: seq<T>, end: int): (r: seq<T>)
    ensures |r| <= |xs| && r == xs[..|r|]
    ensures 0 <= end ==> |r| == Min(end, |xs|)
    ensures end < 0 ==> |r| == Max(0, |xs| + end)
  {
    if end >= 0 then xs[..Min(end, |xs|)] else xs[..Max(0, |xs| + end)]
  }
}

=== FILE: coordinates.dfy ===
/** Resolving a record's position from the three schemas the datasets use
    (`extractLatLon`, script.js lines 102-114). */
module Coordinates {
  import opened Options
  import opened JsValues

  /** A `[lat, lon]` pair as handed to the map. Nothing checks that the
      values are finite or within range, so neither does this type. */
  datatype LatLon = LatLon(lat: real, lon: real)

  /** `rec.latitude && rec.longitude` */
  predicate HasFlat(rec: Record) {
    Truthy(Member(rec, "latitude")) && Truthy(Member(rec, "longitude"))
  }

  /** `rec.location && rec.location.latitude && rec.location.longitude` */
  predicate HasNested(rec: Record) {
    var loc := Member(rec, "location");
    Truthy(loc) && Truthy(Get(loc, "latitude")) && Truthy(Get(loc, "longitude"))
  }

  /** `rec.the_geom && rec.the_geom.type === 'Point' && Array.isArray(rec.the_geom.coordinates)` */
  predicate HasPoint(rec: Record) {
    var geom := Member(rec, "the_geom");
    Truthy(geom) && HasType(geom, "Point") && Get(geom, "coordinates").Arr?
  }

  /** The flat reading alone: `[Number(rec.latitude), Number(rec.longitude)]`. */
  function FlatReading(rec: Record, parse: Value -> real): (r: Option<LatLon>)
    ensures r.Some? <==> HasFlat(rec)
  {
    if HasFlat(rec)
    then Some(LatLon(ToNumber(Member(rec, "latitude"), parse), ToNumber(Member(rec, "longitude"), parse)))
    else None
  }

  /** The nested `location` reading alone. */
  function NestedReading(rec: Record, parse: Value -> real): (r: Option<LatLon>)
    ensures r.Some? <==> HasNested(rec)
  {
    var loc := Member(rec, "location");
    if HasNested(rec)
    then Some(LatLon(ToNumber(Get(loc, "latitude"), parse), ToNumber(Get(loc, "longitude"), parse)))
    else None
  }

  /** The GeoJSON Point reading alone: `[lon, lat]` swapped to `[lat, lon]`. */
  function PointReading(rec: Record, parse: Value -> real): (r: Option<LatLon>)
    ensures r.Some? <==> HasPoint(rec)
  {
    var coords := Get(Member(rec, "the_geom"), "coordinates");
    if HasPoint(rec)
    then Some(LatLon(ToNumber(Index(coords, 1), parse), ToNumber(Index(coords, 0), parse)))
    else None
  }

  /** `extractLatLon(rec)`: the three schemas tried in a fixed order, the
      first that matches winning; `null` only when none matches. No value
      is checked for NaN or range. */
  function ExtractLatLon(rec: Record, parse: Value -> real): (r: Option<LatLon>)
    ensures r == FirstSome([FlatReading(rec, parse), NestedReading(rec, parse), PointReading(rec, parse)])
    ensures r.None? <==> !HasFlat(rec) && !HasNested(rec) && !HasPoint(rec)
  {
    if HasFlat(rec) then
      Some(LatLon(ToNumber(Member(rec, "latitude"), parse), ToNumber(Member(rec, "longitude"), parse)))
    else if HasNested(rec) then
      var loc := Member(rec, "location");
      Some(LatLon(ToNumber(Get(loc, "latitude"), parse), ToNumber(Get(loc, "longitude"), parse)))
    else if HasPoint(rec) then
      // `const [lon, lat] = coordinates` on an array reads its first two slots
      var coords := Get(Member(rec, "the_geom"), "coordinates");
      var readings := [FlatReading(rec, parse), NestedReading(rec, parse), PointReading(rec, parse)];
      assert readings[0].None? && readings[1].None? && readings[2].Some?;
      Some(LatLon(ToNumber(Index(coords, 1), parse), ToNumber(Index(coords, 0), parse)))
    else
      None
  }

  /** Flat fields are used exactly as `Number(...)` gives them, whatever
      else the record carries. */
  lemma FlatFieldsWin(rec: Record, parse: Value -> real)
    requires HasFlat(rec)
    ensures ExtractLatLon(rec, parse)
      == Some(LatLon(ToNumber(rec["latitude"], parse), ToNumber(rec["longitude"], parse)))
  {
  }

  /** First match wins: once the flat fields resolve, adding or replacing a
      `location` or a geometry does not move the point. */
  lemma LaterSchemasShadowed(rec: Record, loc: Value, geom: Value, parse: Value -> real)
    requires HasFlat(rec)
    ensures ExtractLatLon(rec["location" := loc]["the_geom" := geom], parse) == ExtractLatLon(rec, parse)
  {
  }

  /** A record carrying only a Point geometry `[x, y]` resolves to `(y, x)`:
      GeoJSON's longitude-first order is swapped to latitude first. */
  lemma PointIsSwapped(x: Value, y: Value, parse: Value -> real)
    ensures ExtractLatLon(map["the_geom" := Obj(map["type" := Str("Point"), "coordinates" := Arr([x, y])])], parse)
      == Some(LatLon(ToNumber(y, parse), ToNumber(x, parse)))
  {
  }
}

=== FILE: density.dfy ===
/** The bathroom density control (script.js lines 18-87): the buffer of
    fetched bathrooms, the range slider and the markers on the bathroom
    layer, with the four things that change them. */
module Density {
  import opened Seqs
  import opened JsValues
  import opened Loaders

  /** `showBathrooms(50)` on line 26, and the slider's initial `value`. */
  const InitialLimit: int := 50
  /** The slider's `min` (line 52), also the floor of the recomputed `max`. */
  const SliderMin: int := 10
  /** The slider's initial `max` (line 52). */
  const InitialMax: int := 300
  /** The cap of the recomputed `max` (line 79). */
  const MaxCap: int := 1000

  /** The range input, read as numbers: `Number(slider.value)` and `slider.max`. */
  datatype Slider = Slider(value: int, max: int)

  /** `allBathrooms`, the slider and the markers currently in `bathroomLayer`. */
  datatype State = State(buffer: seq<Record>, slider: Slider, markers: seq<Marker>)

  /** Before the fetch resolves: nothing fetched, the slider at 50 of 300. */
  function Initial(): State {
    State([], Slider(InitialLimit, InitialMax), [])
  }

  /** `max(10, min(1000, n))` on line 79. */
  function ClampedMax(n: int): (m: int)
    ensures SliderMin <= m <= MaxCap
    ensures SliderMin <= n <= MaxCap ==> m == n
    ensures n < SliderMin ==> m == SliderMin
    ensures MaxCap < n ==> m == MaxCap
  {
    Max(SliderMin, Min(MaxCap, n))
  }

  /** The markers of a list of buffered bathrooms, one each, in order. */
  function RenderAll(recs: seq<Record>, parse: Value -> real): (r: seq<Marker>)
    ensures |r| == |recs|
    ensures forall i :: 0 <= i < |recs| ==> r[i] == BathroomMarker(recs[i], parse)
  {
    seq(|recs|, i requires 0 <= i < |recs| => BathroomMarker(recs[i], parse))
  }

  /** The layer shows the markers of a prefix of the buffer, in order. */
  predicate ShowsPrefix(s: State, parse: Value -> real) {
    |s.markers| <= |s.buffer| && s.markers == RenderAll(s.buffer[..|s.markers|], parse)
  }

  /** The state every operation keeps: a rendered prefix, and a slider
      maximum within the bounds line 79 imposes (the initial 300 is too). */
  predicate Valid(s: State, parse: Value -> real) {
    ShowsPrefix(s, parse) && SliderMin <= s.slider.max <= MaxCap
  }

  /** `showBathrooms(limit)`: clear the layer, then render the first
      `min(limit, |buffer|)` bathrooms. It replaces, never appends, and
      touches neither the buffer nor the slider. */
  function ShowBathrooms(s: State, limit: int, parse: Value -> real): (r: State)
    ensures r.buffer == s.buffer && r.slider == s.slider
    ensures ShowsPrefix(r, parse)
    ensures 0 <= limit ==> |r.markers| == Min(limit, |s.buffer|)
    ensures limit < 0 ==> |r.markers| == Max(0, |s.buffer| + limit)
  {
    s.(markers := RenderAll(SliceTo(s.buffer, Min(limit, |s.buffer|)), parse))
  }

  /** The slider's `input` handler (lines 66-70): take the new value and
      re-render that many. */
  function SliderInput(s: State, value: int, parse: Value -> real): (r: State)
    ensures r.buffer == s.buffer
    ensures r.slider == Slider(value, s.slider.max)
    ensures ShowsPrefix(r, parse)
    ensures 0 <= value ==> |r.markers| == Min(value, |s.buffer|)
    ensures value < 0 ==> |r.markers| == Max(0, |s.buffer| + value)
  {
    ShowBathrooms(s.(slider := s.slider.(value := value)), value, parse)
  }

  /** `updateBathroomSliderMax()` (lines 74-87): nothing on an empty buffer;
      otherwise the maximum becomes the clamped buffer size, and a value
      above it is lowered to it with the layer re-rendered to match. */
  function UpdateSliderMax(s: State, parse: Value -> real): (r: State)
    ensures s.buffer == [] ==> r == s
    ensures r.buffer == s.buffer
    ensures s.buffer != [] ==> r.slider.max == ClampedMax(|s.buffer|)
    ensures s.buffer != [] ==> r.slider.value <= r.slider.max
    ensures s.buffer != [] && s.slider.value > ClampedMax(|s.buffer|) ==>
      r.slider.value == r.slider.max && ShowsPrefix(r, parse) && |r.markers| == Min(r.slider.max, |s.buffer|)
    ensures s.slider.value <= ClampedMax(|s.buffer|) ==> r.slider.value == s.slider.value && r.markers == s.markers
  {
    if s.buffer == [] then s
    else
      var max := ClampedMax(|s.buffer|);
      var s' := s.(slider := s.slider.(max := max));
      if s'.slider.value > max then ShowBathrooms(s'.(slider := Slider(max, max)), max, parse)
      else s'
  }

  /** The bathroom fetch resolving (lines 23-29): buffer the located rows,
      render 50 of them whatever the slider says, then recompute the
      maximum. */
  function Load(s: State, data: seq<Record>, parse: Value -> real): (r: State)
    ensures r.buffer == BathroomBuffer(data)
    ensures ShowsPrefix(r, parse)
    ensures var n := |BathroomBuffer(data)|;
      |r.markers| == if n > 0 && s.slider.value > ClampedMax(n) then Min(ClampedMax(n), n) else Min(InitialLimit, n)
    ensures var n := |BathroomBuffer(data)|; n == 0 ==> r.slider == s.slider
    ensures var n := |BathroomBuffer(data)|;
      n > 0 ==> r.slider == Slider(if s.slider.value > ClampedMax(n) then ClampedMax(n) else s.slider.value, ClampedMax(n))
  {
    UpdateSliderMax(ShowBathrooms(s.(buffer := BathroomBuffer(data)), InitialLimit, parse), parse)
  }

  /** Every operation keeps the state valid. */
  lemma OperationsKeepValid(s: State, limit: int, value: int, data: seq<Record>, parse: Value -> real)
    requires Valid(s, parse)
    ensures Valid(ShowBathrooms(s, limit, parse), parse)
    ensures Valid(SliderInput(s, value, parse), parse)
    ensures Valid(UpdateSliderMax(s, parse), parse)
    ensures Valid(Load(s, data, parse), parse)
  {
  }

  lemma InitialValid(parse: Value -> real)
    ensures Valid(Initial(), parse)
  {
  }

  /** Re-rendering is idempotent, not additive: the same limit twice gives
      what it gives once, and what was shown before does not matter. */
  lemma ShowIdempotent(s: State, limit: int, prior: seq<Marker>, parse: Value -> real)
    ensures ShowBathrooms(ShowBathrooms(s, limit, parse), limit, parse) == ShowBathrooms(s, limit, parse)
    ensures ShowBathrooms(s.(markers := prior), limit, parse) == ShowBathrooms(s, limit, parse)
  {
  }

  /** Moving the slider to the same value twice is moving it once. */
  lemma SliderInputIdempotent(s: State, value: int, parse: Value -> real)
    ensures SliderInput(SliderInput(s, value, parse), value, parse) == SliderInput(s, value, parse)
  {
  }

  /** With no slider interaction before the fetch resolves, `min(50, n)`
      bathrooms end up on the layer; a non-empty buffer moves the maximum
      to the clamped size and lowers the value only below 50 records. */
  lemma LoadFromInitial(data: seq<Record>, parse: Value -> real)
    ensures var r := Load(Initial(), data, parse); var n := |BathroomBuffer(data)|;
      && |r.markers| == Min(InitialLimit, n)
      && r.slider.max == (if n == 0 then InitialMax else ClampedMax(n))
      && r.slider.value == (if n == 0 then InitialLimit else Min(InitialLimit, ClampedMax(n)))
  {
  }

  /** The clamp law on the example of twenty located bathrooms: the maximum
      drops to 20, the value to 20, and 20 markers show. */
  lemma TwentyBathrooms(data: seq<Record>, parse: Value -> real)
    requires |BathroomBuffer(data)| == 20
    ensures Load(Initial(), data, parse).slider == Slider(20, 20)
    ensures |Load(Initial(), data, parse).markers| == 20
  {
  }

  /** The quirk of line 26: the load renders 50 whatever value the slider
      was moved to before the fetch resolved, so with the value within the
      new maximum the layer count need not be `min(value, |buffer|)`. */
  lemma LoadIgnoresSliderValue(s: State, data: seq<Record>, parse: Value -> real)
    requires BathroomBuffer(data) != []
    requires s.slider.value <= ClampedMax(|BathroomBuffer(data)|)
    ensures |Load(s, data, parse).markers| == Min(InitialLimit, |BathroomBuffer(data)|)
    ensures Load(s, data, parse).slider.value == s.slider.value
  {
  }

  /** A record the filter keeps. */
  function Located(): Record {
    map["latitude" := Str("40.7"), "longitude" := Str("-74.0")]
  }

  /** Concretely: 200 located bathrooms and the slider already at 100 give
      a layer of 50 while the slider reads 100. */
  lemma SliderAt100Shows50(parse: Value -> real)
    ensures var r := Load(State([], Slider(100, InitialMax), []), seq(200, i => Located()), parse);
      r.slider.value == 100 && |r.markers| == 50
  {
    var data := seq(200, i => Located());
    FilterKeepsAll(data, HasLatLon);
  }

  /** In the script text, with the browser's range sanitisation ignored, a
      slider raised past the new maximum is lowered to it, and that many
      markers are rendered instead of 50. A browser clamps the value when
      `max` is assigned on line 80, so there the branch does not run. */
  lemma LoadAfterSliderRaised(s: State, data: seq<Record>, parse: Value -> real)
    requires |BathroomBuffer(data)| > InitialLimit
    requires s.slider.value > ClampedMax(|BathroomBuffer(data)|)
    ensures |Load(s, data, parse).markers| == ClampedMax(|BathroomBuffer(data)|)
    ensures |Load(s, data, parse).markers| > InitialLimit
  {
  }
}

=== FILE: jsvalues.dfy ===
/** The JavaScript values a fetched JSON record is made of, and the three
    things the script does with them: test truthiness, read a member or an
    index, and coerce with `Number(...)`. */
module JsValues {
  import opened Options

  /** A parsed JSON value, plus `undefined` for a missing member or index. */
  datatype Value =
    | Undefined
    | Null
    | Bool(b: bool)
    | Num(n: real)
    | Str(s: string)
    | Arr(items: seq<Value>)
    | Obj(fields: map<string, Value>)

  /** One row of a fetched dataset: a JSON object. */
  type Record = map<string, Value>

  /** JavaScript truthiness: `undefined`, `null`, `false`, `0` and `""` are
      falsy; every array and object is truthy, even an empty one. */
  predicate Truthy(v: Value) {
    match v
    case Undefined => false
    case Null => false
    case Bool(b) => b
    case Num(n) => n != 0.0
    case Str(s) => s != ""
    case Arr(_) => true
    case Obj(_) => true
  }

  /** `rec.key` on a record. */
  function Member(rec: Record, key: string): Value {
    if key in rec then rec[key] else Undefined
  }

  /** `v.key`: only objects have the members the script reads. */
  function Get(v: Value, key: string): Value {
    match v
    case Obj(m) => Member(m, key)
    case _ => Undefined
  }

  /** `v.type === name` */
  predicate HasType(v: Value, name: string) {
    Get(v, "type") == Str(name)
  }

  /** `v?.[i]` (and `v[i]` on a truthy `v`) for a one-digit index: an array
      element, a one-character string, an object member named by the
      digit, and `undefined` for everything else or out of range. */
  function Index(v: Value, i: nat): (r: Value)
    requires i < 10
    ensures v.Arr? && i < |v.items| ==> r == v.items[i]
    ensures v.Arr? && |v.items| <= i ==> r == Undefined
    ensures v.Undefined? || v.Null? || v.Num? || v.Bool? ==> r == Undefined
  {
    match v
    case Arr(items) => if i < |items| then items[i] else Undefined
    case Str(s) => if i < |s| then Str([s[i]]) else Undefined
    case Obj(m) => Member(m, [(('0' as int) + i) as char])
    case _ => Undefined
  }

  /** Array destructuring `const [first, second] = v`: arrays and strings
      are iterable; every other value makes it throw a TypeError (None). */
  function Destructure(v: Value): (r: Option<(Value, Value)>)
    ensures r.Some? <==> v.Arr? || v.Str?
    ensures r.Some? ==> r.value == (Index(v, 0), Index(v, 1))
  {
    if v.Arr? || v.Str? then Some((Index(v, 0), Index(v, 1))) else None
  }

  /** `Number(v)`. A number coerces to itself, `null` to 0 and a boolean to
      0 or 1; what a string, `undefined`, an array or an object coerces to
      (decimal parsing, NaN) is left to the abstract `parse`. */
  function ToNumber(v: Value, parse: Value -> real): (r: real)
    ensures v.Num? ==> r == v.n
    ensures v.Null? ==> r == 0.0
    ensures v.Bool? ==> r == (if v.b then 1.0 else 0.0)
    ensures !(v.Num? || v.Null? || v.Bool?) ==> r == parse(v)
  {
    match v
    case Num(n) => n
    case Null => 0.0
    case Bool(b) => if b then 1.0 else 0.0
    case _ => parse(v)
  }

  /** No candidate before position `i` is truthy. */
  predicate FalsyBefore(candidates: seq<Value>, i: int) {
    forall j :: 0 <= j < i && j < |candidates| ==> !Truthy(candidates[j])
  }

  /** `c0 || c1 || ... || last`: the first truthy candidate, else `last`
      whatever its own truthiness. */
  function FirstTruthy(candidates: seq<Value>, last: Value): (r: Value)
    ensures forall i :: 0 <= i < |candidates| && Truthy(candidates[i]) && FalsyBefore(candidates, i) ==> r == candidates[i]
    ensures FalsyBefore(candidates, |candidates|) ==> r == last
  {
    if candidates == [] then last
    else if Truthy(candidates[0]) then candidates[0]
    else
      var rest := FirstTruthy(candidates[1..], last);
      assert forall i :: 1 <= i < |candidates| ==> candidates[i] == candidates[1..][i - 1];
      rest
  }
}

=== FILE: loaders.dfy ===
/** What each completed fetch turns its rows into: the markers of the art
    layer (script.js lines 116-138), of the dog-run layer (lines 175-200) and
    the record filter and marker of the bathroom layer (lines 24, 36-40).
    The network, the promise chain and the popup HTML are not modelled; a
    marker is its position and its title. */
module Loaders {
  import opened Options
  import opened Seqs
  import opened JsValues
  import opened Coordinates
  import opened Centroid

  datatype Marker = Marker(at: LatLon, title: Value)

  // ---------------------------------------------------------------------
  // Public art

  /** One art row: skipped when `extractLatLon` finds nothing, otherwise a
      marker titled `rec.title || rec.name || 'Public Art'`. */
  function ArtMarker(rec: Record, parse: Value -> real): (r: Option<Marker>)
    ensures r.Some? <==> ExtractLatLon(rec, parse).Some?
    ensures r.Some? ==> r.value.at == ExtractLatLon(rec, parse).value
    ensures r.Some? && Truthy(Member(rec, "title")) ==> r.value.title == rec["title"]
    ensures r.Some? && !Truthy(Member(rec, "title")) && Truthy(Member(rec, "name")) ==> r.value.title == rec["name"]
    ensures r.Some? && !Truthy(Member(rec, "title")) && !Truthy(Member(rec, "name")) ==> r.value.title == Str("Public Art")
  {
    match ExtractLatLon(rec, parse)
    case None => None
    case Some(at) =>
      var chain := [Member(rec, "title"), Member(rec, "name")];
      assert !Truthy(chain[0]) ==> FalsyBefore(chain, 1);
      Some(Marker(at, FirstTruthy(chain, Str("Public Art"))))
  }

  /** The art layer's markers: one per row with coordinates, in row order. */
  function LoadArt(rows: seq<Record>, parse: Value -> real): (r: seq<Marker>)
    ensures |r| <= |rows|
    ensures forall m :: m in r ==> exists i :: 0 <= i < |rows| && ArtMarker(rows[i], parse) == Some(m)
    ensures forall i :: 0 <= i < |rows| && ExtractLatLon(rows[i], parse).Some? ==> ArtMarker(rows[i], parse).value in r
  {
    FilterMap(rows, ArtMarkerOf(parse))
  }

  function ArtMarkerOf(parse: Value -> real): Record -> Option<Marker> {
    rec => ArtMarker(rec, parse)
  }

  /** Rows are handled one at a time, in order: the markers of two batches
      are the markers of each, concatenated. */
  lemma {:induction false} ArtRowsInOrder(a: seq<Record>, b: seq<Record>, parse: Value -> real)
    ensures LoadArt(a + b, parse) == LoadArt(a, parse) + LoadArt(b, parse)
  {
    FilterMapAppend(a, b, ArtMarkerOf(parse));
  }

  // ---------------------------------------------------------------------
  // Dog runs

  /** `rec.the_geom && rec.the_geom.type === 'MultiPolygon'` (lines 181, 186) */
  predicate HasMultiPolygonType(rec: Record) {
    var geom := Member(rec, "the_geom");
    Truthy(geom) && HasType(geom, "MultiPolygon")
  }

  /** `rec.the_geom.coordinates?.[0]?.[0]?.[0]`: the first vertex of the
      first ring of the first polygon, if the chain reaches one. */
  function FirstVertex(rec: Record): Value {
    Index(Index(Index(Get(Member(rec, "the_geom"), "coordinates"), 0), 0), 0)
  }

  /** Lines 180-190: the centroid when there is one; otherwise the first
      vertex, swapped to latitude first, when it is truthy; otherwise none. */
  function DogRunCoords(rec: Record, parse: Value -> real): (r: Option<LatLon>)
    ensures CentroidOf(Member(rec, "the_geom"), parse).Some? ==> r == CentroidOf(Member(rec, "the_geom"), parse)
    ensures CentroidOf(Member(rec, "the_geom"), parse).None? && HasMultiPolygonType(rec) && Truthy(FirstVertex(rec)) ==>
      r == Some(LatLon(ToNumber(Index(FirstVertex(rec), 1), parse), ToNumber(Index(FirstVertex(rec), 0), parse)))
    ensures r.None? <==>
      CentroidOf(Member(rec, "the_geom"), parse).None? && !(HasMultiPolygonType(rec) && Truthy(FirstVertex(rec)))
  {
    var geom := Member(rec, "the_geom");
    var centroid := if HasMultiPolygonType(rec) then CentroidOf(geom, parse) else None;
    if centroid.Some? then centroid
    else if HasMultiPolygonType(rec) && Truthy(FirstVertex(rec)) then
      var first := FirstVertex(rec);
      Some(LatLon(ToNumber(Index(first, 1), parse), ToNumber(Index(first, 0), parse)))
    else None
  }

  /** One dog-run row: a marker titled `rec.name || 'Dog Run'`, or nothing. */
  function DogRunMarker(rec: Record, parse: Value -> real): (r: Option<Marker>)
    ensures r.Some? <==> DogRunCoords(rec, parse).Some?
    ensures r.Some? ==> r.value.at == DogRunCoords(rec, parse).value
    ensures r.Some? && Truthy(Member(rec, "name")) ==> r.value.title == rec["name"]
    ensures r.Some? && !Truthy(Member(rec, "name")) ==> r.value.title == Str("Dog Run")
  {
    match DogRunCoords(rec, parse)
    case None => None
    case Some(at) => Some(Marker(at, FirstTruthy([Member(rec, "name")], Str("Dog Run"))))
  }

  /** The dog-run layer's markers, in row order. */
  function LoadDogRuns(rows: seq<Record>, parse: Value -> real): (r: seq<Marker>)
    ensures |r| <= |rows|
    ensures forall m :: m in r ==> exists i :: 0 <= i < |rows| && DogRunMarker(rows[i], parse) == Some(m)
    ensures forall i :: 0 <= i < |rows| && DogRunCoords(rows[i], parse).Some? ==> DogRunMarker(rows[i], parse).value in r
  {
    FilterMap(rows, DogRunMarkerOf(parse))
  }

  function DogRunMarkerOf(parse: Value -> real): Record -> Option<Marker> {
    rec => DogRunMarker(rec, parse)
  }

  /** Dog-run rows are handled one at a time, in order: the markers of two
      batches are the markers of each, concatenated. */
  lemma {:induction false} DogRunRowsInOrder(a: seq<Record>, b: seq<Record>, parse: Value -> real)
    ensures LoadDogRuns(a + b, parse) == LoadDogRuns(a, parse) + LoadDogRuns(b, parse)
  {
    FilterMapAppend(a, b, DogRunMarkerOf(parse));
  }

  /** A row without usable coordinates (no `the_geom`, say) contributes no
      marker and does not stop the rows after it. */
  lemma {:induction false} UnlocatedDogRunSkipped(before: seq<Record>, rec: Record, after: seq<Record>, parse: Value -> real)
    requires DogRunCoords(rec, parse).None?
    ensures LoadDogRuns(before + [rec] + after, parse) == LoadDogRuns(before, parse) + LoadDogRuns(after, parse)
  {
    assert DogRunMarkerOf(parse)(rec).None?;
    FilterMapSkips(before, rec, after, DogRunMarkerOf(parse));
  }

  /** A well-formed MultiPolygon gets its vertex mean; the first-vertex
      fallback never applies to one, because a first vertex means at least
      one vertex and hence a centroid. */
  lemma WellFormedDogRun(rec: Record, mp: MultiPolygon, parse: Value -> real)
    requires Member(rec, "the_geom") == MultiPolygonGeometry(mp)
    ensures DogRunCoords(rec, parse) == if |Vertices(mp)| == 0 then None else Some(Mean(Vertices(mp)))
  {
    CentroidIsVertexMean(mp, parse);
    var coords := EmbedPolygons(mp);
    assert Get(Member(rec, "the_geom"), "coordinates") == Arr(coords);
    if |Vertices(mp)| == 0 && Truthy(FirstVertex(rec)) {
      NoVertexNoFirst(mp);
      assert false;
    }
  }

  /** On a well-formed MultiPolygon without vertices the chain
      `coordinates?.[0]?.[0]?.[0]` finds nothing. */
  lemma NoVertexNoFirst(mp: MultiPolygon)
    requires |Vertices(mp)| == 0
    ensures Index(Index(Index(Arr(EmbedPolygons(mp)), 0), 0), 0) == Undefined
  {
  }

  /** The fallback at work: in `[[[[1, 2]], 5]]` the second "ring" is a
      number, so the walk throws and the centroid is `null`, but the first
      vertex `[1, 2]` still places the run at latitude 2, longitude 1. */
  lemma FallbackAfterThrow(parse: Value -> real)
    ensures DogRunCoords(map["the_geom" := Obj(map["type" := Str("MultiPolygon"),
              "coordinates" := Arr([Arr([Arr([Arr([Num(1.0), Num(2.0)])]), Num(5.0)])])])], parse)
      == Some(LatLon(2.0, 1.0))
  {
  }

  // ---------------------------------------------------------------------
  // Bathrooms

  /** `p => p.latitude && p.longitude` (line 24): the same test as the
      flat-field guard of `extractLatLon` on line 103. */
  predicate HasLatLon(rec: Record) {
    HasFlat(rec)
  }

  /** `data.filter(...)` on line 24: the rows with truthy `latitude` and
      `longitude`. Multiplicity is stated by `BufferCounts`, fetch order by
      `BufferKeepsOrder` together with `BufferOfOne`. */
  function BathroomBuffer(data: seq<Record>): (r: seq<Record>)
    ensures |r| <= |data|
    ensures forall i :: 0 <= i < |r| ==> r[i] in data && HasLatLon(r[i])
    ensures forall i :: 0 <= i < |data| && HasLatLon(data[i]) ==> data[i] in r
  {
    Filter(data, HasLatLon)
  }

  /** The marker of one buffered bathroom (lines 37-39). */
  function BathroomMarker(rec: Record, parse: Value -> real): (r: Marker)
    ensures r.at == LatLon(ToNumber(Member(rec, "latitude"), parse), ToNumber(Member(rec, "longitude"), parse))
    ensures Truthy(Member(rec, "facility_name")) ==> r.title == rec["facility_name"]
    ensures !Truthy(Member(rec, "facility_name")) ==> r.title == Str("No Facility Name")
  {
    Marker(LatLon(ToNumber(Member(rec, "latitude"), parse), ToNumber(Member(rec, "longitude"), parse)),
           FirstTruthy([Member(rec, "facility_name")], Str("No Facility Name")))
  }

  /** The buffer keeps fetch order: it is built one row at a time. */
  lemma BufferKeepsOrder(a: seq<Record>, b: seq<Record>)
    ensures BathroomBuffer(a + b) == BathroomBuffer(a) + BathroomBuffer(b)
  {
    FilterAppend(a, b, HasLatLon);
  }

  /** The buffer holds each located row as often as it was fetched, and no
      row without coordinates. */
  lemma BufferCounts(data: seq<Record>)
    ensures forall x :: multiset(BathroomBuffer(data))[x] == if HasLatLon(x) then multiset(data)[x] else 0
  {
    FilterCounts(data, HasLatLon);
  }

  /** A bathroom row reaches the buffer exactly when it is located. */
  lemma BufferOfOne(rec: Record)
    ensures BathroomBuffer([rec]) == if HasLatLon(rec) then [rec] else []
  {
  }
}

=== FILE: page.dfy ===
/** The page as a whole: the three marker layers, the legend checkboxes that
    show and hide them (script.js lines 234-259) and the bathroom control
    that follows the bathroom checkbox. Each completed fetch and each user
    event is one function from page to page. */
module Page {
  import opened JsValues
  import opened Loaders
  import Density

  datatype Layer = Bathrooms | Art | DogRuns

  /** `checked` holds the ticked legend checkboxes, `shown` the layers on
      the map, `controlHidden` whether the slider control carries `hidden`. */
  datatype Page = Page(
    bathrooms: Density.State,
    art: seq<Marker>,
    dogs: seq<Marker>,
    checked: set<Layer>,
    shown: set<Layer>,
    controlHidden: bool)

  /** Lines 11-13 and 212-222: every layer on the map, every box ticked. */
  function Initial(): Page {
    Page(Density.Initial(), [], [], {Bathrooms, Art, DogRuns}, {Bathrooms, Art, DogRuns}, false)
  }

  /** The markers a layer holds, shown or not. */
  function Contents(p: Page, l: Layer): seq<Marker> {
    match l
    case Bathrooms => p.bathrooms.markers
    case Art => p.art
    case DogRuns => p.dogs
  }

  /** The view agrees with the legend: a layer is on the map exactly when
      its box is ticked, and the slider control is hidden exactly when the
      bathroom box is not. */
  predicate InSync(p: Page) {
    p.shown == p.checked && (p.controlHidden <==> Bathrooms !in p.checked)
  }

  /** A checkbox's `change` handler: add the layer to the map when its box
      is ticked, remove it otherwise; the bathroom one also shows or hides
      the slider control. Adding a shown layer or removing a hidden one is
      a no-op, as in Leaflet. */
  function OnChange(p: Page, l: Layer): (r: Page)
    ensures forall k :: Contents(r, k) == Contents(p, k)
    ensures r.checked == p.checked
    ensures l in r.shown <==> l in p.checked
    ensures forall k :: k != l ==> (k in r.shown <==> k in p.shown)
    ensures l == Bathrooms ==> (r.controlHidden <==> Bathrooms !in p.checked)
    ensures l != Bathrooms ==> r.controlHidden == p.controlHidden
  {
    var on := l in p.checked;
    var p' := p.(shown := if on then p.shown + {l} else p.shown - {l});
    if l == Bathrooms then p'.(controlHidden := !on) else p'
  }

  /** A click on a legend checkbox: the browser flips the box, then the
      handler runs. */
  function Click(p: Page, l: Layer): (r: Page)
    ensures forall k :: Contents(r, k) == Contents(p, k)
    ensures r.bathrooms == p.bathrooms
    ensures l in r.checked <==> l !in p.checked
    ensures forall k :: k != l ==> (k in r.checked <==> k in p.checked)
    ensures InSync(p) ==> InSync(r) && (l in r.shown <==> l !in p.shown)
    ensures forall k :: k != l ==> (k in r.shown <==> k in p.shown)
  {
    var flipped := if l in p.checked then p.checked - {l} else p.checked + {l};
    OnChange(p.(checked := flipped), l)
  }

  /** The markers on screen. */
  function Visible(p: Page): set<Marker> {
    (if Bathrooms in p.shown then set m | m in p.bathrooms.markers else {})
    + (if Art in p.shown then set m | m in p.art else {})
    + (if DogRuns in p.shown then set m | m in p.dogs else {})
  }

  /** Toggling a layer off and on again restores the page exactly: the
      same markers, the same visibility, no refetch. */
  lemma ClickTwiceRestores(p: Page, l: Layer)
    requires InSync(p)
    ensures Click(Click(p, l), l) == p
    ensures Visible(Click(Click(p, l), l)) == Visible(p)
  {
  }

  /** Hiding one layer leaves every marker of the other shown layers in view. */
  lemma HidingKeepsOthersVisible(p: Page, l: Layer, k: Layer, m: Marker)
    requires InSync(p) && l in p.shown && k != l && k in p.shown
    requires m in Contents(p, k)
    ensures m in Visible(Click(p, l))
  {
  }

  // ---------------------------------------------------------------------
  // Completed fetches and the slider, each confined to its own layer

  /** The art rows resolving: their markers join the art layer. */
  function ArtLoaded(p: Page, rows: seq<Record>, parse: Value -> real): (r: Page)
    ensures r.art == p.art + LoadArt(rows, parse)
    ensures r.bathrooms == p.bathrooms && r.dogs == p.dogs
    ensures r.checked == p.checked && r.shown == p.shown && r.controlHidden == p.controlHidden
  {
    p.(art := p.art + LoadArt(rows, parse))
  }

  /** The dog-run rows resolving: their markers join the dog-run layer. */
  function DogRunsLoaded(p: Page, rows: seq<Record>, parse: Value -> real): (r: Page)
    ensures r.dogs == p.dogs + LoadDogRuns(rows, parse)
    ensures r.bathrooms == p.bathrooms && r.art == p.art
    ensures r.checked == p.checked && r.shown == p.shown && r.controlHidden == p.controlHidden
  {
    p.(dogs := p.dogs + LoadDogRuns(rows, parse))
  }

  /** The bathroom rows resolving. */
  function BathroomsLoaded(p: Page, data: seq<Record>, parse: Value -> real): (r: Page)
    ensures r.bathrooms.buffer == BathroomBuffer(data)
    ensures r.art == p.art && r.dogs == p.dogs
    ensures r.checked == p.checked && r.shown == p.shown && r.controlHidden == p.controlHidden
  {
    p.(bathrooms := Density.Load(p.bathrooms, data, parse))
  }

  /** The slider moved; it works whether or not its control is hidden. */
  function SliderMoved(p: Page, value: int, parse: Value -> real): (r: Page)
    ensures r.bathrooms.slider.value == value
    ensures r.art == p.art && r.dogs == p.dogs
    ensures r.checked == p.checked && r.shown == p.shown && r.controlHidden == p.controlHidden
  {
    p.(bathrooms := Density.SliderInput(p.bathrooms, value, parse))
  }

  /** The page starts in sync, and no event breaks it. */
  lemma EventsKeepSync(p: Page, l: Layer, rows: seq<Record>, value: int, parse: Value -> real)
    requires InSync(p)
    ensures InSync(Initial())
    ensures InSync(Click(p, l))
    ensures InSync(ArtLoaded(p, rows, parse)) && InSync(DogRunsLoaded(p, rows, parse))
    ensures InSync(BathroomsLoaded(p, rows, parse)) && InSync(SliderMoved(p, value, parse))
  {
  }
}
